=== FILE: README.md ===
# search_words in Dafny

`search.py` is a small grep-like tool. It takes a regular expression and either a
list of files or lines typed on standard input. It prints every line the pattern
occurs in as `file_name line_number line`. With `-c colour` it colours each match.
With `-u` it underlines each match. With `-m` it prints
`file_name:line_number:start_position:line` instead.

This project models, as pure functions over immutable values:

- the colour palette `getColor` (module `Palette`);
- the search classes `SearchWords`, `searchWordsWithColor`,
  `searchWordWithUnderlined`, `searchWordWithMachine` and `compositeSearch`
  (module `SearchWords`). Each object is a `Search` value, and each
  `findPatterns` call is a function from the value before the call to the value
  after it. `__str__` is `Render`;
- the two printed layouts and readers that take them apart again (module `Format`);
- typed input collection (`enter_text_from_cmd`), `init_cmd_data`, and the stdin
  and file record loops of `main` (module `Records`);
- the output loop of `main` and the whole run from prepared input to printed lines
  (module `Program`). `Execute` reads every line of every file.
  `ExecuteAsWritten` drops the last line of each file, as the code does (see
  Findings).

The regular-expression engine is not modelled. `Regex.Engine` bundles the calls
the tool makes, `re.search`, `re.findall` and `re.sub`, as parameters, together
with `compiles`, which says whether a pattern compiles. A pattern that does not
compile makes every call raise `re.error`. `sub` may also raise `re.error` on a
valid pattern, for a replacement string with a bad escape. The colour and
underline loops use each matched substring as a new pattern, so even a valid
`-r` expression can end a run with `re.error` (`SearchWords.ColorSubstitutionRaises`).
The only other assumption is that a text in which `search` finds nothing gives
an empty `findall` (`Regex.FindAllAgrees`). `Literal.LiteralEngine` is one
concrete engine for patterns without metacharacters, on which nothing raises.
It is used only to evaluate the concrete scenarios in module `Scenarios`.

Standard input is a sequence of lines. The file system is a map from file names
to the lines `readlines()` returns. Output is the sequence of printed lines plus
the exception that ended the run, if any (`Wrappers.Run`).

The model depends on three details of the code:

- With `-c` or `-u` on, the cooperative `super().__init__` chain of those classes
  also runs `searchWordWithMachine.__init__`, which sets `_start = 0`. With
  neither on, `_start` is never assigned, because the `searchWordWithMachine(...)`
  built for `-m` is thrown away. `SearchWords.FoundRenders` proves that a printed
  record never reads the unset attribute.
- `searchWordWithMachine.findPatterns` calls `super().findPatterns()`. In
  `compositeSearch`'s method resolution order that is the base search, run again
  on the already-decorated line. The start offset is also taken from the
  decorated line. `SearchWords.FoundIffMatches` proves that `found` still depends
  only on the original line.
- The prompting `input()` reads and discards the first line of standard input. On
  empty input it raises `EOFError`.

The module docstring (search.py:15-19) calls `-u`, `-c` and `-m` mutually
exclusive, and describes the last field of the `-m` layout as `matched_text`.
The model follows the code:

- `-c` and `-u` combine with `-m`. Nothing rejects the combination. The machine
  layout then prints the decorated line, and the offset is counted in that line.
- `-m` prints the whole line (search.py:184), not only the matched text.

Two further behaviours of the code are modelled as written:

- A missing file ends the file loop, because the `try` encloses the whole loop
  (search.py:333-350). The files after it are not read.
- Decoration re-runs `re.sub` with each matched substring as a new pattern
  (search.py:121, 150). It does not splice the matched spans.

## Model

| member | source | states |
|---|---|---|
| `Palette.GetColor` | search.py:27-50 | each of the eight palette names wraps the text in `\033[1;3Xm` … `\033[1;m`, with X the name's digit (black 0 … gray 7); any other name returns the text unchanged |
| `Palette.UncolorGetColor` | search.py:34-49 | coloured output can be read back into the colour name and the original text, so no two palette colours produce the same output |
| `Text.RStrip` | search.py:254-256 | `rstrip` gives the longest prefix that does not end in a stripped character, and every removed character is in the class |
| `Text.LStrip` | search.py:344 | `lstrip` gives the longest suffix that does not start in a stripped character, and every removed character is in the class |
| `Text.NatToString` | search.py:93 | `str(n)` is a non-empty string of decimal digits with no leading zero |
| `Text.ParseNatToString` | search.py:184 | reading the decimal rendering back gives the number again |
| `Text.NatToStringInjective` | search.py:184 | different numbers render differently |
| `Text.CanonicalRoundTrip` | search.py:93 | a numeral without leading zeros is `str` of the number it denotes, so `str(n)` is the only numeral without leading zeros that reads back to `n` |
| `Format.ParsePlainFormat` | search.py:93 | the plain layout `file line_no line` splits back into the file name, the number and the whole line when the file name holds no space |
| `Format.ParseMachineFormat` | search.py:184 | the machine layout `file:line_no:start:line` splits back into all four fields when the file name holds no colon, even if the line holds colons |
| `Format.ParsePlainOfFormat` | search.py:93 | given the source name, the plain layout reads back into the line number and the line for every source name, `stdin Input` included |
| `Format.ParsePlainOfExact` | search.py:93 | a text that reads back, given the source name, is exactly `name + " " + str(number) + " " + line`; a zero-padded number does not read back |
| `Format.ParseMachineOfFormat` | search.py:184 | given the source name, the machine layout reads back into the line number, the offset and the line for every source name |
| `Format.ParseMachineOfExact` | search.py:184 | a text that reads back, given the source name, is exactly `name:str(number):str(start):line`; zero-padded numbers do not read back |
| `SearchWords.NewSearch` | search.py:191-215 | a new object has `found` false and the record's fields; `_start` is 0 when colour or underline is on and unset otherwise |
| `SearchWords.BaseFind` | search.py:73-79 | raises `re.error` exactly when the expression does not compile; otherwise `found` becomes true when the pattern matches the current line and is never set back to false, and nothing else changes |
| `SearchWords.Substitute` | search.py:117-121 | an empty list leaves the line unchanged; the loop can only raise `re.error`; when every `re.sub` of a listed substring succeeds, the loop completes |
| `SearchWords.SubstituteLoop` | search.py:117-121 | the `for i in re.findall(...)` loop applies one `re.sub` per found substring, in order, each on the line the previous one produced, and stops at the first `re.error` |
| `SearchWords.SubstituteAppend` | search.py:146-150 | substituting a list of found substrings is substituting its first part, then, unless that raised, its second part on the result |
| `SearchWords.ColorFind` | search.py:112-121 | the colour step raises only `re.error`, and does so when the expression does not compile; otherwise it changes only the line, leaves it unchanged when `findall` finds nothing, and completes when every `re.sub` succeeds |
| `SearchWords.UnderlineFind` | search.py:141-150 | the underline step raises only `re.error`, and does so when the expression does not compile; otherwise it changes only the line, leaves it unchanged when `findall` finds nothing, and completes when every `re.sub` succeeds |
| `SearchWords.MachineFind` | search.py:169-177 | the machine step raises `re.error` exactly when the expression does not compile; otherwise it re-runs the base search on the current line, and when that line matches, `_start` takes the offset of its first match, and otherwise `_start` keeps its value |
| `SearchWords.FindPatterns` | search.py:217-231 | base search, then colour, underline and machine (the colour-before-underline order is pinned by `Scenarios.ColoredUnderlinedScenario`). It raises only `re.error`: always when the expression does not compile, and never without colour or underline when it does. When it completes, `found` never goes back to false and a match in the original line sets it; without colour or underline the line is untouched; with `-m` the offset comes from the decorated line |
| `SearchWords.Render` | search.py:233-240 | `__str__` raises `AttributeError` for `_start` exactly when `-m` is on and `_start` was never assigned; otherwise its text reads back into the file name, line number, offset (with `-m`) and decorated line, provided the file name holds no separator of the layout |
| `SearchWords.RenderReadsBack` | search.py:233-240 | for every file name, `stdin Input` included, the text `__str__` prints reads back, given the file name, into the number, the offset (with `-m`) and the decorated line; with the `…Exact` lemmas the text is exactly `file_name line_number line` or `file_name:line_number:start_position:line` |
| `SearchWords.InvalidPatternRaises` | search.py:73-79 | an expression that does not compile raises `re.error`, whatever the options |
| `SearchWords.ColorSubstitutionRaises` | search.py:117-121 | with `-c`, a first matched substring that `re.sub` cannot use raises `re.error`, although the expression compiles |
| `SearchWords.UndecoratedNeverRaises` | search.py:222-231 | without `-c` and `-u`, a compiling expression never raises in `findPatterns` |
| `SearchWords.FoundIffMatches` | search.py:222-231 | after a `findPatterns` that completes, `regexFound()` is true exactly when the pattern occurs in the original line, whatever the options |
| `SearchWords.FoundRenders` | search.py:233-240 | `__str__` of a record whose pattern was found never raises `AttributeError` for `_start` |
| `SearchWords.MachineAloneReportsFirstOffset` | search.py:176-184 | with `-m` alone and a compiling expression, the search completes and the output is `file:num:start:line`, with `start` the first match's offset in the original line and the line printed whole |
| `SearchWords.DecoratedMissReportsZero` | search.py:158-177 | with decoration and `-m`, a decorated line the pattern no longer matches prints the offset 0 stored by the constructor chain |
| `SearchWords.RenderIgnoresDecorationOptions` | search.py:233-240 | the colour and underline options do not affect `__str__` apart from the line they decorated |
| `Records.CollectLines` | search.py:253-256 | lines are kept up to, and not including, the first one whose `rstrip()` is `"q"`; each kept line loses its trailing newlines |
| `Records.CollectLinesStopsAtQuit` | search.py:254-255 | nothing after the quit line is collected |
| `Records.EnterText` | search.py:243-257 | empty input raises `EOFError`; otherwise the first line is consumed by the prompt and the collection loop runs on the rest |
| `Records.StdinRecords` | search.py:328-330 | typed line `i` becomes record number `i` of source `"stdin Input"` |
| `Records.FileRecordsUpTo` | search.py:343-345 | the first `n` lines of a file become records numbered from 0, named after the file, with newlines stripped from both ends |
| `Records.FileRecordsAsWritten` | search.py:343 | as written, a file of `n > 0` lines yields records for lines `0 … n-2` only |
| `Records.FileRecords` | search.py:343-345 | corrected: every line of a file yields a record |
| `Records.AsWrittenDropsLastLine` | search.py:343 | the written loop and the corrected one differ by exactly the last line's record |
| `Records.OneLineFileIsLost` | search.py:343 | a file holding only `"cat\n"` yields no record as written, and the record `("f", 0, "cat")` when corrected |
| `Records.CollectFiles` | search.py:333-350 | with no missing file, every name was found; otherwise the missing name is absent from the file system and every earlier name was present |
| `Records.CollectFilesAppend` | search.py:334-347 | records of files that open are appended in file order |
| `Records.CollectFilesOne` | search.py:334-347 | a file that opens contributes exactly the records built from its lines, so with `CollectFilesAppend` the records of opened files are those of each file in turn, each numbered from 0 |
| `Records.CollectFilesMissingFirst` | search.py:349-350 | a missing first file ends the loop with no records and its name reported |
| `Records.MissingFileStops` | search.py:349-350 | a missing file ends the loop: later files are ignored, and the records of the earlier files are kept |
| `Program.Output` | search.py:365-368 | one record raises exactly when its `findPatterns` raises, and then only `re.error`; otherwise it prints a line exactly when `regexFound()` is true |
| `Program.Collect` | search.py:361-368 | a loop over record outcomes prints at most one line per record |
| `Program.CollectCrash` | search.py:361-368 | the loop ends without an exception exactly when no record raised, and any exception it ends with is one a record raised |
| `Program.CollectAppend` | search.py:361-368 | the loop over `x + y` is the loop over `x`, then, unless that raised, the loop over `y` |
| `Program.Emit` | search.py:361-368 | the output loop prints at most one line per record |
| `Program.EmitRaisesOnlyReError` | search.py:361-368 | the output loop never raises `AttributeError`; the only exception it can end with is `re.error`, and it ends without one exactly when every record's `findPatterns` completes |
| `Program.InvalidPatternPrintsNothing` | search.py:361-365 | an expression that does not compile raises `re.error` on the first record, before anything is printed |
| `Program.EmitOneRaises` | search.py:361-365 | a record whose `findPatterns` raises prints nothing and ends the loop with `re.error` |
| `Program.EmitStopsAtRaise` | search.py:361-368 | the loop stops at the first record whose `findPatterns` raises: the lines printed are exactly those of the records before it, and the run ends with `re.error` |
| `Program.EmitAppend` | search.py:361-368 | output keeps input order: the output for `a + b` is the output for `a` followed, unless `a` raised, by the output for `b` |
| `Program.EmitOne` | search.py:365-368 | a record whose search completes prints exactly its `__str__` when the pattern occurs in its original line, and nothing otherwise |
| `Program.EmitCountsMatches` | search.py:361-368 | when every search completes, there are as many printed lines as records whose original line matches |
| `Program.ExecuteWith` | search.py:320-368 | a run raises `EOFError` exactly on empty standard input, and can otherwise raise only `re.error`; on standard input the prompt is the first line printed; after a missing file, its error message is printed before any match |
| `Program.ExecuteRunsOutputLoop` | search.py:320-368 | after the prompt or the missing file's message, a run prints exactly what the output loop prints for the records built from standard input or from the files, and ends the way that loop ends |
| `Program.StdinPrintsMatchingLines` | search.py:320-368 | when every search completes, a run on standard input prints the prompt and then one line per matching typed line, and raises nothing |
| `Program.StdinIgnoresAfterQuit` | search.py:253-255 | lines typed after the quit line never change a run |
| `Program.FilesIgnoredAfterMissing` | search.py:333-350 | the file names after the first missing one never change a run |
| `Program.StdinLabelUnreadable` | search.py:93 | the plain layout of a standard-input line does not read back, because the source name `stdin Input` holds a space |
| `Scenarios.PlainScenario` | search.py:93 | pattern `cat` on `the cat sat`, record 3 of `f`, prints `f 3 the cat sat` |
| `Scenarios.MachineScenario` | search.py:184 | the same with `-m` prints `f:3:4:the cat sat` |
| `Scenarios.NoMatchScenario` | search.py:367-368 | a line without the pattern prints nothing |
| `Scenarios.ColoredUnderlinedScenario` | search.py:224-228 | with `-c red -u`, colour runs first: `the cat sat` becomes `the \033[1;31m\033[4mcat\033[0m\033[1;m sat`, the underline inside the colour |
| `Scenarios.ColoredMachineScenario` | search.py:222-231 | with `-c red -m`, the search completes, the line is coloured first and the offset printed is 11, counted in the coloured line |
| `Scenarios.LastLineScenario` | search.py:343 | a one-line file matching the pattern prints nothing as written, and `f 0 cat` when every line is read |

## Left out

- Option parsing with `getopt` and the `-h` help exit (search.py:298-318) are not modelled. The options are given as an `Options` value. A run without `-r`, which would pass `None` to `re`, is not modelled.
- The regular-expression engine is not modelled. `re.search`, `re.findall`, `re.sub` and whether a pattern compiles are parameters. A `findall` that returns tuples (patterns with several groups) is outside the model. Which replacement strings `re.sub` rejects, and how it expands the escapes it accepts, are left to the engine.
- The effect of the colour and underline loops on the text is not modelled. It depends entirely on how `re.sub` treats each matched substring as a new pattern. Only the loop's structure is modelled.
- `SearchWords.Substitute`: its contract only covers the empty list, the kind of exception, and when the loop completes. What the line becomes depends on the abstract engine.
- `SearchWords.SubstituteLoop`: its contract ties the loop to the fold `Substitute`, and so says no more than `Substitute` does.
- Opening, reading and closing files and reading `sys.stdin` are not modelled. Files are a map from name to `readlines()` lines, and standard input is a sequence of lines. Text-mode newline translation is not modelled. Errors other than `FileNotFoundError` (permissions, directories, decoding) are not modelled; in the code they end the run.
- `Text.Strip`: its contract only states that neither end of the result is a stripped character, and that the result is no longer than the input. Its full meaning comes from `LStrip` and `RStrip`, which it composes.
- Python integers are unbounded, as Dafny's are, so no width or wrap-around is involved.

## Findings

| source | as written | input that shows it | evidently intended | confidence | as-written member | corrected member |
|---|---|---|---|---|---|---|
| search.py:343 | `for i in range(len(text_lines) - 1)` never reads the last line of a file | `-r cat -f f`, with `f` holding the single line `cat\n`: nothing is printed | `range(len(text_lines))`, so every line of the file is searched | medium, not executed | `Records.FileRecordsAsWritten` (`Records.OneLineFileIsLost`, `Scenarios.LastLineScenario`) | `Records.FileRecords` (used by `Program.Execute`) |

=== FILE: format.dfy ===
/** The two printed layouts of a matching line: the plain layout of
    `SearchWords.__str__` and the machine layout of
    `searchWordWithMachine.__str__`, with readers that take them apart. */
module Format {
  import opened Wrappers
  import opened Text

  /** `"file_name line_number line"`. */
  function PlainFormat(fileName: string, lineNumber: nat, line: string): string {
    fileName + " " + NatToString(lineNumber) + " " + line
  }

  /** `"file_name:line_number:start_position:line"`. */
  function MachineFormat(fileName: string, lineNumber: nat, start: nat, line: string): string {
    fileName + ":" + NatToString(lineNumber) + ":" + NatToString(start) + ":" + line
  }

  /** Splits `s` at the first occurrence of `sep`. */
  function SplitAt(s: string, sep: char): (r: Option<(string, string)>)
    ensures r.Some? ==> sep !in r.value.0 && s == r.value.0 + [sep] + r.value.1
    ensures r.None? ==> sep !in s
    decreases |s|
  {
    if |s| == 0 then None
    else if s[0] == sep then Some(([], s[1..]))
    else match SplitAt(s[1..], sep)
      case None => None
      case Some((a, b)) => Some(([s[0]] + a, b))
  }

  /** The first separator is the one right after a separator-free head. */
  lemma {:induction false} SplitAtFirst(a: string, sep: char, b: string)
    requires sep !in a
    ensures SplitAt(a + [sep] + b, sep) == Some((a, b))
    decreases |a|
  {
    var s := a + [sep] + b;
    if |a| > 0 {
      assert s[0] == a[0] && s[1..] == a[1..] + [sep] + b;
      SplitAtFirst(a[1..], sep, b);
      assert [a[0]] + a[1..] == a;
    } else {
      assert s[1..] == b;
    }
  }

  /** The fields of a printed record, as a reader of the output sees them. */
  datatype Fields = Fields(fileName: string, lineNumber: nat, start: Option<nat>, line: string)

  /** Reads a machine-layout line back into its four fields. */
  function ParseMachine(s: string): Option<Fields> {
    match SplitAt(s, ':')
    case None => None
    case Some((f, rest)) =>
      match SplitAt(rest, ':')
      case None => None
      case Some((n, rest')) =>
        match SplitAt(rest', ':')
        case None => None
        case Some((st, line)) =>
          if IsCanonical(n) && IsCanonical(st) then Some(Fields(f, ParseNat(n), Some(ParseNat(st)), line))
          else None
  }

  /** Reads a plain-layout line back into its three fields. */
  function ParsePlain(s: string): Option<Fields> {
    match SplitAt(s, ' ')
    case None => None
    case Some((f, rest)) =>
      match SplitAt(rest, ' ')
      case None => None
      case Some((n, line)) =>
        if IsCanonical(n) then Some(Fields(f, ParseNat(n), None, line)) else None
  }

  /** The machine layout loses nothing: as long as the file name holds no
      colon, every field is read back, and the line keeps any colons of its
      own. */
  lemma ParseMachineFormat(fileName: string, lineNumber: nat, start: nat, line: string)
    requires ':' !in fileName
    ensures ParseMachine(MachineFormat(fileName, lineNumber, start, line))
         == Some(Fields(fileName, lineNumber, Some(start), line))
  {
    var n := NatToString(lineNumber);
    var st := NatToString(start);
    NumeralHasNo(n, ':');
    NumeralHasNo(st, ':');
    var rest' := st + [':'] + line;
    var rest := n + [':'] + rest';
    assert MachineFormat(fileName, lineNumber, start, line) == fileName + [':'] + rest;
    SplitAtFirst(fileName, ':', rest);
    SplitAtFirst(n, ':', rest');
    SplitAtFirst(st, ':', line);
    ParseNatToString(lineNumber);
    ParseNatToString(start);
  }

  /** The plain layout loses nothing when the file name holds no space. */
  lemma ParsePlainFormat(fileName: string, lineNumber: nat, line: string)
    requires ' ' !in fileName
    ensures ParsePlain(PlainFormat(fileName, lineNumber, line)) == Some(Fields(fileName, lineNumber, None, line))
  {
    var n := NatToString(lineNumber);
    NumeralHasNo(n, ' ');
    var rest := n + [' '] + line;
    assert PlainFormat(fileName, lineNumber, line) == fileName + [' '] + rest;
    SplitAtFirst(fileName, ' ', rest);
    SplitAtFirst(n, ' ', line);
    ParseNatToString(lineNumber);
  }

  /** Reads a plain-layout line printed for the source `fileName` back into
      its line number and line. Unlike `ParsePlain`, it works for every
      source name, spaces included. */
  function ParsePlainOf(fileName: string, s: string): Option<(nat, string)> {
    var head := fileName + " ";
    if |s| < |head| || s[..|head|] != head then None
    else
      match SplitAt(s[|head|..], ' ')
      case None => None
      case Some((n, line)) => if IsCanonical(n) then Some((ParseNat(n), line)) else None
  }

  /** Reads a machine-layout line printed for the source `fileName` back into
      its line number, start offset and line, for every source name. */
  function ParseMachineOf(fileName: string, s: string): Option<(nat, nat, string)> {
    var head := fileName + ":";
    if |s| < |head| || s[..|head|] != head then None
    else
      match SplitAt(s[|head|..], ':')
      case None => None
      case Some((n, rest)) =>
        match SplitAt(rest, ':')
        case None => None
        case Some((st, line)) =>
          if IsCanonical(n) && IsCanonical(st) then Some((ParseNat(n), ParseNat(st), line)) else None
  }

  /** The plain layout of any source reads back into its number and line. */
  lemma ParsePlainOfFormat(fileName: string, lineNumber: nat, line: string)
    ensures ParsePlainOf(fileName, PlainFormat(fileName, lineNumber, line)) == Some((lineNumber, line))
  {
    var n := NatToString(lineNumber);
    NumeralHasNo(n, ' ');
    var head := fileName + " ";
    var s := PlainFormat(fileName, lineNumber, line);
    assert s == head + (n + [' '] + line);
    assert s[..|head|] == head && s[|head|..] == n + [' '] + line;
    SplitAtFirst(n, ' ', line);
    ParseNatToString(lineNumber);
  }

  /** Only the plain layout itself reads back: a text that `ParsePlainOf`
      accepts is exactly the layout of what it returns. */
  lemma ParsePlainOfExact(fileName: string, s: string)
    requires ParsePlainOf(fileName, s).Some?
    ensures s == PlainFormat(fileName, ParsePlainOf(fileName, s).value.0, ParsePlainOf(fileName, s).value.1)
  {
    var head := fileName + " ";
    var (n, line) := SplitAt(s[|head|..], ' ').value;
    CanonicalRoundTrip(n);
    assert s == s[..|head|] + s[|head|..];
  }

  /** The machine layout of any source reads back into its three numbers and
      line, and keeps any colons of the line. */
  lemma ParseMachineOfFormat(fileName: string, lineNumber: nat, start: nat, line: string)
    ensures ParseMachineOf(fileName, MachineFormat(fileName, lineNumber, start, line)) == Some((lineNumber, start, line))
  {
    var n := NatToString(lineNumber);
    var st := NatToString(start);
    NumeralHasNo(n, ':');
    NumeralHasNo(st, ':');
    var head := fileName + ":";
    var rest := st + [':'] + line;
    var s := MachineFormat(fileName, lineNumber, start, line);
    assert s == head + (n + [':'] + rest);
    assert s[..|head|] == head && s[|head|..] == n + [':'] + rest;
    SplitAtFirst(n, ':', rest);
    SplitAtFirst(st, ':', line);
    ParseNatToString(lineNumber);
    ParseNatToString(start);
  }

  /** Only the machine layout itself reads back: a text that `ParseMachineOf`
      accepts is exactly the layout of what it returns. */
  lemma ParseMachineOfExact(fileName: string, s: string)
    requires ParseMachineOf(fileName, s).Some?
    ensures s == MachineFormat(fileName, ParseMachineOf(fileName, s).value.0,
                               ParseMachineOf(fileName, s).value.1, ParseMachineOf(fileName, s).value.2)
  {
    var head := fileName + ":";
    var (n, rest) := SplitAt(s[|head|..], ':').value;
    var (st, line) := SplitAt(rest, ':').value;
    CanonicalRoundTrip(n);
    CanonicalRoundTrip(st);
    assert s == s[..|head|] + s[|head|..];
  }
}

=== FILE: palette.dfy ===
/** The shell colour palette of `getColor`: eight colour names, each mapped to
    a bold ANSI foreground sequence, and a fall-back that leaves text alone. */
module Palette {
  import opened Wrappers

  /** The escape character written `\033` in the source. */
  const Esc: char := '\U{1B}'

  /** The sequence `\033[1;m` that closes every coloured span. */
  const Reset: string := [Esc] + "[1;m"

  /** The sequence `\033[1;3Xm` that opens a span in colour digit `X`. */
  function ColorPrefix(digit: char): string {
    [Esc] + "[1;3" + [digit] + "m"
  }

  /** The palette as a table: colour name to the digit `X` of its prefix. */
  const Names: map<string, char> :=
    map["black" := '0', "red" := '1', "green" := '2', "yellow" := '3',
        "blue" := '4', "magenta" := '5', "cyan" := '6', "gray" := '7']

  /** `getColor(colour, text)`: a known colour wraps the text in its prefix and
      the reset sequence; any other name returns the text unchanged. */
  function GetColor(colour: string, text: string): (r: string)
    ensures colour in Names ==> r == ColorPrefix(Names[colour]) + text + Reset
    ensures colour !in Names ==> r == text
  {
    if colour == "black" then [Esc] + "[1;30m" + text + Reset
    else if colour == "red" then [Esc] + "[1;31m" + text + Reset
    else if colour == "green" then [Esc] + "[1;32m" + text + Reset
    else if colour == "yellow" then [Esc] + "[1;33m" + text + Reset
    else if colour == "blue" then [Esc] + "[1;34m" + text + Reset
    else if colour == "magenta" then [Esc] + "[1;35m" + text + Reset
    else if colour == "cyan" then [Esc] + "[1;36m" + text + Reset
    else if colour == "gray" then [Esc] + "[1;37m" + text + Reset
    else text
  }

  /** The colour name whose prefix carries digit `d`, if any. */
  function NameOf(d: char): (r: Option<string>)
    ensures r.Some? ==> r.value in Names && Names[r.value] == d
  {
    if d == '0' then Some("black")
    else if d == '1' then Some("red")
    else if d == '2' then Some("green")
    else if d == '3' then Some("yellow")
    else if d == '4' then Some("blue")
    else if d == '5' then Some("magenta")
    else if d == '6' then Some("cyan")
    else if d == '7' then Some("gray")
    else None
  }

  /** Reads a coloured span back into its colour name and its text. */
  function Uncolor(s: string): (r: Option<(string, string)>)
    ensures r.Some? ==> r.value.0 in Names
  {
    if |s| >= 12 && s[..5] == [Esc] + "[1;3" && s[6] == 'm' && s[|s| - 5..] == Reset then
      match NameOf(s[5])
      case Some(name) => Some((name, s[7..|s| - 5]))
      case None => None
    else None
  }

  /** Colouring with a palette name can be undone: the colour and the text are
      both recovered from the output, so no two colours look alike. */
  lemma UncolorGetColor(colour: string, text: string)
    requires colour in Names
    ensures Uncolor(GetColor(colour, text)) == Some((colour, text))
  {
  }
}

=== FILE: program.dfy ===
/** `main` after option parsing: building the records from standard input or
    from the named files, running one `compositeSearch` per record, and
    printing the records whose search found the pattern. */
module Program {
  import opened Wrappers
  import opened Regex
  import opened SearchWords
  import opened Records
  import opened Text
  import opened Format

  /** One record through `compositeSearch(...)` and `findPatterns()`. */
  function Processed(e: Engine, opts: Options, r: Record): Result<Search, Crash> {
    Process(e, opts, r.lineNumber, r.line, r.fileName)
  }

  /** What one record of the output loop does: raise, print nothing because
      `regexFound()` is false, or print its `__str__`. A record whose search
      completes never raises `AttributeError` here, because a record that is
      printed always has `_start`. */
  function Output(e: Engine, opts: Options, r: Record): (o: Result<Option<string>, Crash>)
    ensures o.Err? <==> Processed(e, opts, r).Err?
    ensures o.Err? ==> o.error == ReError
    ensures o.Ok? ==> (o.value.Some? <==> Processed(e, opts, r).value.found)
  {
    match Processed(e, opts, r)
    case Err(c) => Err(c)
    case Ok(s) =>
      if !s.found then Ok(None)
      else
        FoundRenders(e, opts, r.lineNumber, r.line, r.fileName);
        match Render(s)
        case Err(c) => Err(c)
        case Ok(text) => Ok(Some(text))
  }

  /** The lines printed and the exception raised by a loop whose records,
      in order, had the outcomes `outs`: the first exception ends it. */
  function Collect(outs: seq<Result<Option<string>, Crash>>): (out: Run)
    ensures |out.stdout| <= |outs|
    decreases |outs|
  {
    if |outs| == 0 then Run([], None)
    else
      match outs[0]
      case Err(c) => Run([], Some(c))
      case Ok(None) => Collect(outs[1..])
      case Ok(Some(text)) =>
        var rest := Collect(outs[1..]);
        Run([text] + rest.stdout, rest.crash)
  }

  /** The loop ends without an exception exactly when no record raised, and
      an exception it ends with is one a record raised. */
  lemma {:induction false} CollectCrash(outs: seq<Result<Option<string>, Crash>>)
    ensures Collect(outs).crash.None? <==> forall i :: 0 <= i < |outs| ==> outs[i].Ok?
    ensures Collect(outs).crash.Some? ==> exists i :: 0 <= i < |outs| && outs[i] == Err(Collect(outs).crash.value)
    decreases |outs|
  {
    if |outs| > 0 {
      CollectCrash(outs[1..]);
      assert forall i :: 1 <= i < |outs| ==> outs[i] == outs[1..][i - 1];
      if Collect(outs).crash.Some? && outs[0].Ok? {
        var k :| 0 <= k < |outs[1..]| && outs[1..][k] == Err(Collect(outs).crash.value);
        assert outs[k + 1] == outs[1..][k];
      }
    }
  }

  /** Outcomes are printed in order: the loop over `x + y` is the loop over
      `x` followed, unless `x` raised, by the loop over `y`. */
  lemma {:induction false} CollectAppend(x: seq<Result<Option<string>, Crash>>, y: seq<Result<Option<string>, Crash>>)
    ensures Collect(x + y)
         == if Collect(x).crash.Some? then Collect(x)
            else Run(Collect(x).stdout + Collect(y).stdout, Collect(y).crash)
    decreases |x|
  {
    if |x| == 0 {
      assert x + y == y;
    } else {
      assert (x + y)[0] == x[0] && (x + y)[1..] == x[1..] + y;
      CollectAppend(x[1..], y);
      match x[0]
      case Err(c) =>
      case Ok(None) =>
      case Ok(Some(text)) =>
        var p, q := Collect(x[1..]), Collect(y);
        assert [text] + p.stdout + q.stdout == [text] + (p.stdout + q.stdout);
    }
  }

  /** The outcome of every record, in order. */
  function Outputs(e: Engine, opts: Options, records: seq<Record>): (o: seq<Result<Option<string>, Crash>>)
    ensures |o| == |records|
    ensures forall i {:trigger o[i]} :: 0 <= i < |records| ==> o[i] == Output(e, opts, records[i])
  {
    seq(|records|, i requires 0 <= i < |records| => Output(e, opts, records[i]))
  }

  lemma OutputsAppend(e: Engine, opts: Options, a: seq<Record>, b: seq<Record>)
    ensures Outputs(e, opts, a + b) == Outputs(e, opts, a) + Outputs(e, opts, b)
  {
    var l, x, y := Outputs(e, opts, a + b), Outputs(e, opts, a), Outputs(e, opts, b);
    forall i | 0 <= i < |l|
      ensures l[i] == (x + y)[i]
    {
      if i < |a| {
        assert (a + b)[i] == a[i];
      } else {
        assert (a + b)[i] == b[i - |a|];
      }
    }
  }

  /** The output loop of `main`: every record gets its own search object; a
      record whose `regexFound()` is false prints nothing, any other prints
      its `__str__`. An exception from `findPatterns()` or `__str__` ends the
      loop with the earlier lines already printed. */
  function Emit(e: Engine, opts: Options, records: seq<Record>): (out: Run)
    ensures |out.stdout| <= |records|
  {
    Collect(Outputs(e, opts, records))
  }

  /** The output loop never reaches the unset `_start`: the only exception it
      can end with is `re.error`, and it ends with none exactly when every
      record's search completes. */
  lemma EmitRaisesOnlyReError(e: Engine, opts: Options, records: seq<Record>)
    ensures Emit(e, opts, records).crash.Some? ==> Emit(e, opts, records).crash == Some(ReError)
    ensures Emit(e, opts, records).crash.None? <==>
              forall i :: 0 <= i < |records| ==> Processed(e, opts, records[i]).Ok?
  {
    var o := Outputs(e, opts, records);
    CollectCrash(o);
    assert forall i :: 0 <= i < |records| ==> (o[i].Ok? <==> Processed(e, opts, records[i]).Ok?);
  }

  /** An expression that does not compile stops the loop at the first record,
      before anything is printed. */
  lemma InvalidPatternPrintsNothing(e: Engine, opts: Options, records: seq<Record>)
    requires !e.compiles(opts.exp) && |records| > 0
    ensures Emit(e, opts, records) == Run([], Some(ReError))
  {
    InvalidPatternRaises(e, opts, records[0].lineNumber, records[0].line, records[0].fileName);
    assert Outputs(e, opts, records)[0] == Err(ReError);
  }

  /** A record whose `findPatterns` raises prints nothing and ends the loop
      with `re.error`. */
  lemma EmitOneRaises(e: Engine, opts: Options, r: Record)
    requires Processed(e, opts, r).Err?
    ensures Emit(e, opts, [r]) == Run([], Some(ReError))
  {
    assert Outputs(e, opts, [r])[0] == Output(e, opts, r);
  }

  /** Records are printed in input order: the output for `a + b` is the output
      for `a` followed, unless `a` raised, by the output for `b`. */
  lemma EmitAppend(e: Engine, opts: Options, a: seq<Record>, b: seq<Record>)
    ensures Emit(e, opts, a + b)
         == if Emit(e, opts, a).crash.Some? then Emit(e, opts, a)
            else Run(Emit(e, opts, a).stdout + Emit(e, opts, b).stdout, Emit(e, opts, b).crash)
  {
    OutputsAppend(e, opts, a, b);
    CollectAppend(Outputs(e, opts, a), Outputs(e, opts, b));
  }

  /** The loop stops at the first record whose `findPatterns` raises: the
      lines printed are those of the records before it, and the run ends with
      `re.error`. */
  lemma EmitStopsAtRaise(e: Engine, opts: Options, records: seq<Record>, k: nat)
    requires k < |records| && Processed(e, opts, records[k]).Err?
    requires forall j :: 0 <= j < k ==> Processed(e, opts, records[j]).Ok?
    ensures Emit(e, opts, records) == Run(Emit(e, opts, records[..k]).stdout, Some(ReError))
  {
    var pre, post := records[..k], records[k..];
    assert records == pre + post;
    EmitAppend(e, opts, pre, post);
    assert forall j :: 0 <= j < |pre| ==> pre[j] == records[j];
    EmitRaisesOnlyReError(e, opts, pre);
    assert Outputs(e, opts, post)[0] == Output(e, opts, records[k]);
  }

  /** One record whose search completes prints exactly one line when the
      pattern occurs in its original line, and nothing otherwise; the line is
      its `__str__`. */
  lemma EmitOne(e: Engine, opts: Options, r: Record)
    requires opts.machine ==> FindAllAgrees(e, opts.exp, r.line)
    requires Processed(e, opts, r).Ok?
    ensures Matches(e, opts.exp, r.line) ==>
              Emit(e, opts, [r]) == Run([Render(Processed(e, opts, r).value).value], None)
    ensures !Matches(e, opts.exp, r.line) ==> Emit(e, opts, [r]) == Run([], None)
  {
    FoundIffMatches(e, opts, r.lineNumber, r.line, r.fileName);
    var s := Processed(e, opts, r).value;
    var o := Outputs(e, opts, [r]);
    assert o[0] == Output(e, opts, r);
    assert o[1..] == [];
    assert Collect(o[1..]) == Run([], None);
    if s.found {
      FoundRenders(e, opts, r.lineNumber, r.line, r.fileName);
      assert Output(e, opts, r) == Ok(Some(Render(s).value));
    } else {
      assert Output(e, opts, r) == Ok(None);
    }
  }

  /** The records whose original line the pattern occurs in, in input order. */
  function Matching(e: Engine, exp: string, records: seq<Record>): (m: seq<Record>)
    ensures |m| <= |records|
    ensures forall i :: 0 <= i < |m| ==> m[i] in records && Matches(e, exp, m[i].line)
    decreases |records|
  {
    if |records| == 0 then []
    else if Matches(e, exp, records[0].line) then [records[0]] + Matching(e, exp, records[1..])
    else Matching(e, exp, records[1..])
  }

  /** When every search completes, one line is printed per matching record,
      and none for the rest. */
  lemma {:induction false} EmitCountsMatches(e: Engine, opts: Options, records: seq<Record>)
    requires opts.machine ==> forall i :: 0 <= i < |records| ==> FindAllAgrees(e, opts.exp, records[i].line)
    requires forall i :: 0 <= i < |records| ==> Processed(e, opts, records[i]).Ok?
    ensures |Emit(e, opts, records).stdout| == |Matching(e, opts.exp, records)|
    decreases |records|
  {
    if |records| > 0 {
      var r, rest := records[0], records[1..];
      assert Processed(e, opts, r).Ok?;
      FoundIffMatches(e, opts, r.lineNumber, r.line, r.fileName);
      assert forall i :: 0 <= i < |rest| ==> rest[i] == records[i + 1];
      EmitCountsMatches(e, opts, rest);
      assert records == [r] + rest;
      EmitAppend(e, opts, [r], rest);
      EmitOne(e, opts, r);
    }
  }

  /** Where the lines come from: standard input as the lines of its stream,
      or a list of file names and a file system mapping each existing name to
      its `readlines()`. */
  datatype Input =
    | Stdin(stream: seq<string>)
    | Files(names: seq<string>, fs: map<string, seq<string>>)

  /** The prompt `input()` prints before reading. */
  const Prompt: string := "Enter your text. For exit type 'q':"

  /** The message printed when a file cannot be found. */
  function NotFound(name: string): string {
    "Error file " + name + " not found"
  }

  /** `main` from the prepared input to the last printed line, with the
      per-file record builder as a parameter. The prompt comes first on
      standard input; a missing file's message is printed before any match. */
  function ExecuteWith(e: Engine, opts: Options, input: Input,
                       perFile: (string, seq<string>) -> seq<Record>): (out: Run)
    ensures out.crash == Some(EOFError) <==> input.Stdin? && |input.stream| == 0
    ensures out.crash.Some? ==> out.crash == Some(EOFError) || out.crash == Some(ReError)
    ensures input.Stdin? ==> |out.stdout| > 0 && out.stdout[0] == Prompt
    ensures input.Files? && CollectFiles(input.names, input.fs, perFile).missing.Some? ==>
              |out.stdout| > 0 && out.stdout[0] == NotFound(CollectFiles(input.names, input.fs, perFile).missing.value)
  {
    match input
    case Stdin(stream) =>
      if |stream| == 0 then Run([Prompt], Some(EOFError))
      else
        var records := StdinRecords(CollectLines(stream[1..]));
        EmitRaisesOnlyReError(e, opts, records);
        var out := Emit(e, opts, records);
        Run([Prompt] + out.stdout, out.crash)
    case Files(names, fs) =>
      var c := CollectFiles(names, fs, perFile);
      EmitRaisesOnlyReError(e, opts, c.records);
      var out := Emit(e, opts, c.records);
      Run((if c.missing.Some? then [NotFound(c.missing.value)] else []) + out.stdout, out.crash)
  }

  /** `main` with every line of every file read. */
  function Execute(e: Engine, opts: Options, input: Input): Run {
    ExecuteWith(e, opts, input, FileRecords)
  }

  /** `main` as written, dropping the last line of every file. */
  function ExecuteAsWritten(e: Engine, opts: Options, input: Input): Run {
    ExecuteWith(e, opts, input, FileRecordsAsWritten)
  }

  /** On standard input, what is typed after the quit line never changes the
      run. */
  lemma StdinIgnoresAfterQuit(e: Engine, opts: Options, perFile: (string, seq<string>) -> seq<Record>,
                              head: string, a: seq<string>, q: string, b1: seq<string>, b2: seq<string>)
    requires IsQuit(q)
    ensures ExecuteWith(e, opts, Stdin([head] + a + [q] + b1), perFile)
         == ExecuteWith(e, opts, Stdin([head] + a + [q] + b2), perFile)
  {
    assert ([head] + a + [q] + b1)[1..] == a + [q] + b1;
    assert ([head] + a + [q] + b2)[1..] == a + [q] + b2;
    CollectLinesStopsAtQuit(a, q, b1);
    CollectLinesStopsAtQuit(a, q, b2);
  }

  /** With a list of files, the names after the first missing one never
      change the run. */
  lemma FilesIgnoredAfterMissing(e: Engine, opts: Options, perFile: (string, seq<string>) -> seq<Record>,
                                 pre: seq<string>, missing: string, rest1: seq<string>, rest2: seq<string>,
                                 fs: map<string, seq<string>>)
    requires forall j :: 0 <= j < |pre| ==> pre[j] in fs
    requires missing !in fs
    ensures ExecuteWith(e, opts, Files(pre + [missing] + rest1, fs), perFile)
         == ExecuteWith(e, opts, Files(pre + [missing] + rest2, fs), perFile)
  {
    var n1 := pre + [missing] + rest1;
    var n2 := pre + [missing] + rest2;
    assert n1[..|pre|] == pre && n2[..|pre|] == pre;
    assert n1[|pre|] == missing && n2[|pre|] == missing;
    MissingFileStops(n1, |pre|, fs, perFile);
    MissingFileStops(n2, |pre|, fs, perFile);
  }

  /** The plain layout of a line typed on standard input cannot be read back:
      the source name `"stdin Input"` holds the separator itself. */
  lemma StdinLabelUnreadable(n: nat, line: string)
    ensures ParsePlain(PlainFormat(StdinLabel, n, line)) == None
  {
    var tail := NatToString(n) + " " + line;
    var rest := "Input" + [' '] + tail;
    assert PlainFormat(StdinLabel, n, line) == "stdin" + [' '] + rest;
    SplitAtFirst("stdin", ' ', rest);
    SplitAtFirst("Input", ' ', tail);
    assert !IsDigit("Input"[0]);
  }

  /** After the header line (the prompt, or the missing file's message), a
      run prints exactly what the output loop prints for the records built
      from the input, and ends the way that loop ends. */
  lemma ExecuteRunsOutputLoop(e: Engine, opts: Options, input: Input,
                              perFile: (string, seq<string>) -> seq<Record>)
    ensures input.Stdin? && |input.stream| > 0 ==>
              ExecuteWith(e, opts, input, perFile)
              == Run([Prompt] + Emit(e, opts, StdinRecords(CollectLines(input.stream[1..]))).stdout,
                     Emit(e, opts, StdinRecords(CollectLines(input.stream[1..]))).crash)
    ensures input.Files? ==>
              var c := CollectFiles(input.names, input.fs, perFile);
              ExecuteWith(e, opts, input, perFile)
              == Run((if c.missing.Some? then [NotFound(c.missing.value)] else []) + Emit(e, opts, c.records).stdout,
                     Emit(e, opts, c.records).crash)
  {
  }

  /** When every search completes, a run on standard input prints the prompt
      and then one line per typed line that matches, and raises nothing. */
  lemma StdinPrintsMatchingLines(e: Engine, opts: Options, stream: seq<string>,
                                 perFile: (string, seq<string>) -> seq<Record>)
    requires |stream| > 0
    requires var recs := StdinRecords(CollectLines(stream[1..]));
             forall i :: 0 <= i < |recs| ==> Processed(e, opts, recs[i]).Ok?
    requires var recs := StdinRecords(CollectLines(stream[1..]));
             opts.machine ==> forall i :: 0 <= i < |recs| ==> FindAllAgrees(e, opts.exp, recs[i].line)
    ensures var out := ExecuteWith(e, opts, Stdin(stream), perFile);
            out.crash == None && |out.stdout| == 1 + |Matching(e, opts.exp, StdinRecords(CollectLines(stream[1..])))|
  {
    var recs := StdinRecords(CollectLines(stream[1..]));
    ExecuteRunsOutputLoop(e, opts, Stdin(stream), perFile);
    EmitRaisesOnlyReError(e, opts, recs);
    EmitCountsMatches(e, opts, recs);
  }
}

=== FILE: records.dfy ===
/** Building the input records: the lines typed on standard input
    (`enter_text_from_cmd`), the lines of each file, and the dictionaries of
    `init_cmd_data` that carry them to the search. */
module Records {
  import opened Wrappers
  import opened Text

  /** `init_cmd_data(num, file_line, file_name)`: one input line with its
      source name and its 0-based number within that source. */
  datatype Record = Record(fileName: string, lineNumber: nat, line: string)

  /** The source name given to every line read from standard input. */
  const StdinLabel: string := "stdin Input"

  /** The line that ends typed input: `"q"` once trailing whitespace is
      removed. */
  predicate IsQuit(line: string) {
    RStrip(line, IsSpace) == "q"
  }

  /** `line.rstrip("\n")`. */
  function Chomp(line: string): string {
    RStrip(line, IsNewline)
  }

  /** The lines kept by the collection loop: every line before the first quit
      line, each with its trailing newlines removed. */
  function CollectLines(lines: seq<string>): (r: seq<string>)
    ensures |r| <= |lines|
    ensures forall i {:trigger r[i]} :: 0 <= i < |r| ==> !IsQuit(lines[i]) && r[i] == Chomp(lines[i])
    ensures |r| < |lines| ==> IsQuit(lines[|r|])
    decreases |lines|
  {
    if |lines| == 0 || IsQuit(lines[0]) then []
    else
      var rest := CollectLines(lines[1..]);
      var r := [Chomp(lines[0])] + rest;
      assert forall i :: 1 <= i < |r| ==> r[i] == rest[i - 1] && lines[i] == lines[1..][i - 1];
      r
  }

  /** Nothing typed after the quit line is read. */
  lemma {:induction false} CollectLinesStopsAtQuit(a: seq<string>, q: string, b: seq<string>)
    requires IsQuit(q)
    ensures CollectLines(a + [q] + b) == CollectLines(a + [q])
    decreases |a|
  {
    if |a| == 0 {
      assert a + [q] + b == [q] + b && a + [q] == [q];
    } else {
      assert (a + [q] + b)[0] == a[0] && (a + [q] + b)[1..] == a[1..] + [q] + b;
      assert (a + [q])[0] == a[0] && (a + [q])[1..] == a[1..] + [q];
      CollectLinesStopsAtQuit(a[1..], q, b);
    }
  }

  /** `enter_text_from_cmd`. The prompting `input()` consumes the first line of
      the stream and discards it, and raises `EOFError` when there is none;
      the `for line in sys.stdin` loop then collects from the next line on. */
  method EnterText(stream: seq<string>) returns (r: Result<seq<string>, Crash>)
    ensures |stream| == 0 <==> r == Err(EOFError)
    ensures |stream| > 0 ==> r == Ok(CollectLines(stream[1..]))
  {
    if |stream| == 0 {
      return Err(EOFError);
    }
    var lines: seq<string> := [];
    var i := 1;
    while i < |stream|
      invariant 1 <= i <= |stream|
      invariant CollectLines(stream[1..]) == lines + CollectLines(stream[i..])
    {
      CollectFrom(stream, i);
      if IsQuit(stream[i]) {
        break;
      }
      lines := lines + [Chomp(stream[i])];
      i := i + 1;
    }
    if i == |stream| {
      assert stream[i..] == [];
    } else {
      CollectFrom(stream, i);
    }
    assert lines + [] == lines;
    return Ok(lines);
  }

  /** One step of the collection loop on the stream from line `i` on. */
  lemma CollectFrom(stream: seq<string>, i: nat)
    requires i < |stream|
    ensures CollectLines(stream[i..])
         == if IsQuit(stream[i]) then [] else [Chomp(stream[i])] + CollectLines(stream[i + 1..])
  {
  }

  /** The records of the typed lines: line `i` becomes record number `i` of
      the source `"stdin Input"`. */
  function StdinRecords(lines: seq<string>): (r: seq<Record>)
    ensures |r| == |lines|
    ensures forall i :: 0 <= i < |r| ==> r[i] == Record(StdinLabel, i, lines[i])
  {
    if |lines| == 0 then []
    else StdinRecords(lines[..|lines| - 1]) + [Record(StdinLabel, |lines| - 1, lines[|lines| - 1])]
  }

  /** The records of the first `n` lines of one file, numbered from 0, each
      line with newlines stripped from both ends. */
  function FileRecordsUpTo(name: string, lines: seq<string>, n: nat): (r: seq<Record>)
    requires n <= |lines|
    ensures |r| == n
    ensures forall i :: 0 <= i < n ==> r[i] == Record(name, i, Strip(lines[i], IsNewline))
  {
    if n == 0 then []
    else FileRecordsUpTo(name, lines, n - 1) + [Record(name, n - 1, Strip(lines[n - 1], IsNewline))]
  }

  /** The file loop as written, `for i in range(len(text_lines) - 1)`: the
      last line of every file is never read into a record. */
  function FileRecordsAsWritten(name: string, lines: seq<string>): (r: seq<Record>)
    ensures |lines| > 0 ==> |r| == |lines| - 1
    ensures |lines| == 0 ==> r == []
    ensures forall i :: 0 <= i < |r| ==> r[i] == Record(name, i, Strip(lines[i], IsNewline))
  {
    FileRecordsUpTo(name, lines, if |lines| == 0 then 0 else |lines| - 1)
  }

  /** The file loop as evidently intended: every line of the file becomes a
      record. */
  function FileRecords(name: string, lines: seq<string>): (r: seq<Record>)
    ensures |r| == |lines|
    ensures forall i :: 0 <= i < |r| ==> r[i] == Record(name, i, Strip(lines[i], IsNewline))
  {
    FileRecordsUpTo(name, lines, |lines|)
  }

  /** The written loop differs from the intended one by exactly the last line. */
  lemma AsWrittenDropsLastLine(name: string, lines: seq<string>)
    requires |lines| > 0
    ensures FileRecords(name, lines)
         == FileRecordsAsWritten(name, lines) + [Record(name, |lines| - 1, Strip(lines[|lines| - 1], IsNewline))]
  {
  }

  /** A file of one line, `"cat\n"`, yields no record at all as written, and
      the record of that line when every line is read. */
  lemma OneLineFileIsLost()
    ensures FileRecordsAsWritten("f", ["cat\n"]) == []
    ensures FileRecords("f", ["cat\n"]) == [Record("f", 0, "cat")]
  {
    var r := FileRecords("f", ["cat\n"]);
    assert r[0] == Record("f", 0, Strip("cat\n", IsNewline));
    assert LStrip("cat\n", IsNewline) == "cat\n";
    assert RStrip("cat\n", IsNewline) == RStrip("cat", IsNewline);
    assert "cat\n"[..3] == "cat";
  }

  /** What the file loop leaves: the records built, and the first missing file
      when one stopped it. */
  datatype Collected = Collected(records: seq<Record>, missing: Option<string>)

  /** The `try: for file in files: ...` loop of `main`, with the file system as
      a map from names to their lines (`readlines()`) and `perFile` turning one
      file's lines into records. A name absent from the map raises
      `FileNotFoundError`, which ends the loop: the records already built are
      kept and the later files are never opened. */
  function CollectFiles(names: seq<string>, fs: map<string, seq<string>>,
                        perFile: (string, seq<string>) -> seq<Record>): (c: Collected)
    ensures c.missing.None? ==> forall i :: 0 <= i < |names| ==> names[i] in fs
    ensures c.missing.Some? ==> c.missing.value !in fs
    ensures c.missing.Some? ==> exists k :: 0 <= k < |names| && names[k] == c.missing.value
                                           && forall j :: 0 <= j < k ==> names[j] in fs
    decreases |names|
  {
    if |names| == 0 then Collected([], None)
    else if names[0] !in fs then Collected([], Some(names[0]))
    else
      var rest := CollectFiles(names[1..], fs, perFile);
      assert rest.missing.Some? ==> exists k :: 0 <= k < |names[1..]| && names[1..][k] == rest.missing.value
                                             && forall j :: 0 <= j < k ==> names[1..][j] in fs;
      assert rest.missing.Some? ==> exists k :: 0 <= k < |names| && names[k] == rest.missing.value
                                             && forall j :: 0 <= j < k ==> names[j] in fs;
      Collected(perFile(names[0], fs[names[0]]) + rest.records, rest.missing)
  }

  /** Files that all open contribute their records in order: the records of
      `a + b` are those of `a` followed by those of `b`. */
  lemma {:induction false} CollectFilesAppend(a: seq<string>, b: seq<string>, fs: map<string, seq<string>>,
                                              perFile: (string, seq<string>) -> seq<Record>)
    requires forall i :: 0 <= i < |a| ==> a[i] in fs
    ensures CollectFiles(a + b, fs, perFile)
         == Collected(CollectFiles(a, fs, perFile).records + CollectFiles(b, fs, perFile).records,
                      CollectFiles(b, fs, perFile).missing)
    decreases |a|
  {
    if |a| > 0 {
      assert (a + b)[0] == a[0] && (a + b)[1..] == a[1..] + b;
      CollectFilesAppend(a[1..], b, fs, perFile);
    } else {
      assert a + b == b;
    }
  }

  /** A file that opens contributes exactly the records built from its
      lines. */
  lemma CollectFilesOne(name: string, fs: map<string, seq<string>>,
                        perFile: (string, seq<string>) -> seq<Record>)
    requires name in fs
    ensures CollectFiles([name], fs, perFile) == Collected(perFile(name, fs[name]), None)
  {
    assert [name][1..] == [];
  }

  /** A missing file first in the list ends the loop with no records. */
  lemma CollectFilesMissingFirst(name: string, rest: seq<string>, fs: map<string, seq<string>>,
                                 perFile: (string, seq<string>) -> seq<Record>)
    requires name !in fs
    ensures CollectFiles([name] + rest, fs, perFile) == Collected([], Some(name))
  {
    assert ([name] + rest)[0] == name;
  }

  /** A missing file stops the loop: whatever follows it is ignored, and the
      records are exactly those of the files before it. */
  lemma {:induction false} MissingFileStops(names: seq<string>, k: nat, fs: map<string, seq<string>>,
                                            perFile: (string, seq<string>) -> seq<Record>)
    requires k < |names| && names[k] !in fs
    requires forall j :: 0 <= j < k ==> names[j] in fs
    ensures CollectFiles(names, fs, perFile) == Collected(CollectFiles(names[..k], fs, perFile).records, Some(names[k]))
  {
    assert names == names[..k] + names[k..];
    CollectFilesAppend(names[..k], names[k..], fs, perFile);
  }
}

=== FILE: regex.dfy ===
/** The regular-expression engine, seen only through the three calls the
    search tool makes on Python's `re` module. Its semantics are not part of
    the tool, so the engine is a parameter of every operation that uses it. */
module Regex {
  import opened Wrappers

  datatype Engine = Engine(
    /** `re.compile(pattern)` succeeds. Every call below with a pattern that
        does not compile raises `re.error` instead of returning. */
    compiles: string -> bool,
    /** `re.search(pattern, text)`: `Some(start)` with the start offset of the
        first match (`.span()[0]`), or `None` when there is no match. */
    search: (string, string) -> Option<nat>,
    /** `re.findall(pattern, text)`: the matched substrings, left to right. */
    findAll: (string, string) -> seq<string>,
    /** `re.sub(pattern, replacement, text)`, or `None` when it raises
        `re.error`: the pattern does not compile, or the replacement holds a
        bad escape. */
    sub: (string, string, string) -> Option<string>)

  /** `re.search(pattern, text)` is truthy. */
  predicate Matches(e: Engine, pattern: string, text: string) {
    e.search(pattern, text).Some?
  }

  /** The one guarantee of Python's `re` the model leans on: a text in which
      `search` finds nothing yields no matches from `findall` either. */
  predicate FindAllAgrees(e: Engine, pattern: string, text: string) {
    !Matches(e, pattern, text) ==> e.findAll(pattern, text) == []
  }
}

/** A concrete engine for patterns without metacharacters: a pattern matches
    exactly its own characters. It gives the abstract operations of the model
    a witness on which concrete lines can be evaluated. */
module Literal {
  import opened Wrappers
  import opened Regex

  /** `p` occurs in `s` starting at offset `k`. */
  predicate OccursAt(p: string, s: string, k: nat) {
    k + |p| <= |s| && s[k..k + |p|] == p
  }

  /** The leftmost occurrence of `p` in `s` at offset `from` or later. */
  function IndexFrom(p: string, s: string, from: nat): (r: Option<nat>)
    ensures r.Some? ==> from <= r.value && OccursAt(p, s, r.value)
    ensures r.Some? ==> forall k: nat :: from <= k < r.value ==> !OccursAt(p, s, k)
    ensures r.None? ==> forall k: nat :: from <= k ==> !OccursAt(p, s, k)
    decreases |s| - from
  {
    if from + |p| > |s| then None
    else if s[from..from + |p|] == p then Some(from)
    else IndexFrom(p, s, from + 1)
  }

  /** The offset of the leftmost occurrence of `p` in `s`. */
  function IndexOf(p: string, s: string): (r: Option<nat>)
    ensures r.Some? ==> OccursAt(p, s, r.value)
    ensures r.Some? ==> forall k: nat :: k < r.value ==> !OccursAt(p, s, k)
    ensures r.None? ==> forall k: nat :: !OccursAt(p, s, k)
  {
    IndexFrom(p, s, 0)
  }

  /** The leftmost occurrence is found: an occurrence at `j` with none before
      it is what `IndexOf` returns. */
  lemma IndexOfFirst(p: string, s: string, j: nat)
    requires OccursAt(p, s, j)
    requires forall k: nat :: k < j ==> !OccursAt(p, s, k)
    ensures IndexOf(p, s) == Some(j)
  {
  }

  /** No occurrence can start before `j` when the first character of the
      pattern does not appear there. */
  lemma NoOccurrenceBefore(p: string, s: string, j: nat)
    requires |p| > 0 && j <= |s| && p[0] !in s[..j]
    ensures forall k: nat :: k < j ==> !OccursAt(p, s, k)
  {
  }

  /** `r` before, between and after every character of `s`: what `re.sub`
      does with an empty pattern. */
  function Interleave(r: string, s: string): string
    decreases |s|
  {
    if |s| == 0 then r else r + [s[0]] + Interleave(r, s[1..])
  }

  /** The non-overlapping occurrences of `p` in `s`, left to right. */
  function FindAll(p: string, s: string): (r: seq<string>)
    ensures IndexOf(p, s).None? ==> r == []
    decreases |s|
  {
    if |p| == 0 then seq(|s| + 1, _ => "")
    else match IndexOf(p, s)
      case None => []
      case Some(k) => [p] + FindAll(p, s[k + |p|..])
  }

  /** Every non-overlapping occurrence of `p` in `s` replaced by `r`. */
  function Replace(p: string, r: string, s: string): string
    decreases |s|
  {
    if |p| == 0 then Interleave(r, s)
    else if IndexOf(p, s).None? then s
    else
      var k := IndexOf(p, s).value;
      s[..k] + r + Replace(p, r, s[k + |p|..])
  }

  /** One step of `Replace`: up to the leftmost occurrence, the replacement,
      then the rest. */
  lemma {:induction false} ReplaceStep(p: string, r: string, s: string)
    requires |p| > 0 && IndexOf(p, s).Some?
    ensures Replace(p, r, s) == s[..IndexOf(p, s).value] + r + Replace(p, r, s[IndexOf(p, s).value + |p|..])
  {
  }

  /** Without an occurrence `Replace` changes nothing. */
  lemma {:induction false} ReplaceNone(p: string, r: string, s: string)
    requires |p| > 0 && IndexOf(p, s) == None
    ensures Replace(p, r, s) == s
  {
  }

  const LiteralEngine: Engine :=
    Engine(p => true, (p, s) => IndexOf(p, s), (p, s) => FindAll(p, s), (p, r, s) => Some(Replace(p, r, s)))

  /** The literal engine keeps `search` and `findall` in agreement. */
  lemma LiteralFindAllAgrees(p: string, s: string)
    ensures FindAllAgrees(LiteralEngine, p, s)
  {
  }
}

=== FILE: scenarios.dfy ===
/** Concrete runs of the model on the literal engine: the documented output
    layouts on one line, a line without a match, the machine offset taken on
    a coloured line, and a one-line file. */
module Scenarios {
  import opened Wrappers
  import opened Literal
  import opened Palette
  import opened SearchWords
  import opened Records
  import opened Program
  import opened Format

  const Line: string := "the cat sat"

  lemma CatAtFour()
    ensures IndexOf("cat", Line) == Some(4)
    ensures LiteralEngine.search("cat", Line) == Some(4)
  {
    assert Line[4..7] == "cat";
    assert Line[..4] == "the ";
    NoOccurrenceBefore("cat", Line, 4);
    IndexOfFirst("cat", Line, 4);
  }

  lemma PlainText()
    ensures PlainFormat("f", 3, Line) == "f 3 the cat sat"
  {
  }

  lemma MachineText()
    ensures MachineFormat("f", 3, 4, Line) == "f:3:4:the cat sat"
  {
  }

  /** Plain layout: `"<file> <number> <line>"`. */
  lemma PlainScenario()
    ensures Emit(LiteralEngine, Options("cat", None, false, false), [Record("f", 3, Line)]).stdout
         == ["f 3 the cat sat"]
  {
    var opts := Options("cat", None, false, false);
    CatAtFour();
    var s := Process(LiteralEngine, opts, 3, Line, "f").value;
    assert s.found && s.line == Line;
    assert Render(s) == Ok(PlainFormat("f", 3, Line));
    PlainText();
    EmitOne(LiteralEngine, opts, Record("f", 3, Line));
  }

  /** Machine layout: the third field is where `cat` starts. */
  lemma MachineScenario()
    ensures Emit(LiteralEngine, Options("cat", None, false, true), [Record("f", 3, Line)]).stdout
         == ["f:3:4:the cat sat"]
  {
    var opts := Options("cat", None, false, true);
    CatAtFour();
    LiteralFindAllAgrees("cat", Line);
    MachineAloneReportsFirstOffset(LiteralEngine, opts, 3, Line, "f");
    MachineText();
    EmitOne(LiteralEngine, opts, Record("f", 3, Line));
  }

  /** A line without the pattern prints nothing. */
  lemma NoMatchScenario()
    ensures Emit(LiteralEngine, Options("zzz", None, false, false), [Record("f", 0, "no match here")]).stdout == []
  {
    NoOccurrenceBefore("zzz", "no match here", |"no match here"|);
    assert "no match here"[..13] == "no match here";
  }

  /** `the cat sat` with `cat` coloured red. */
  const Colored: string := "the " + GetColor("red", "cat") + " sat"

  lemma FindAllLine()
    ensures FindAll("cat", Line) == ["cat"]
  {
    CatAtFour();
    var rest := Line[7..];
    assert rest == " sat";
    NoOccurrenceBefore("cat", rest, |rest|);
    assert rest[..|rest|] == rest;
  }

  lemma ReplaceLine()
    ensures Replace("cat", GetColor("red", "cat"), Line) == Colored
  {
    CatAtFour();
    var w := GetColor("red", "cat");
    assert w == ColorPrefix('1') + "cat" + Reset;
    var rest := " sat";
    assert Line[7..] == rest && Line[..4] == "the ";
    NoOccurrenceBefore("cat", rest, 4);
    assert rest[..4] == rest;
    ReplaceNone("cat", w, rest);
    ReplaceStep("cat", w, Line);
  }

  lemma CatAtEleven()
    ensures IndexOf("cat", Colored) == Some(11)
  {
    assert GetColor("red", "cat") == ColorPrefix('1') + "cat" + Reset;
    assert Colored[11..14] == "cat";
    assert Colored[..11] == "the " + ColorPrefix('1');
    NoOccurrenceBefore("cat", Colored, 11);
    IndexOfFirst("cat", Colored, 11);
  }

  /** With colour and machine output together, the offset is counted in the
      coloured line: the seven characters of the red prefix move `cat` from 4
      to 11. */
  lemma ColoredMachineScenario()
    ensures Process(LiteralEngine, Options("cat", Some("red"), false, true), 0, Line, "f").Ok?
    ensures Process(LiteralEngine, Options("cat", Some("red"), false, true), 0, Line, "f").value.line == Colored
    ensures Process(LiteralEngine, Options("cat", Some("red"), false, true), 0, Line, "f").value.start == Some(11)
  {
    var opts := Options("cat", Some("red"), false, true);
    CatAtFour();
    FindAllLine();
    ReplaceLine();
    CatAtEleven();
    var b := BaseFind(LiteralEngine, NewSearch(opts, 0, Line, "f")).value;
    assert b.line == Line;
    assert ["cat"][1..] == [];
    assert Paint("red")("cat") == GetColor("red", "cat");
    assert Substitute(LiteralEngine, ["cat"], Paint("red"), Line) == Ok(Colored);
    var c := ColorFind(LiteralEngine, b, "red");
    assert c == Ok(b.(line := Colored));
    assert LiteralEngine.search("cat", Colored) == Some(11);
  }

  /** `the cat sat` with `cat` coloured red, then underlined inside the
      colour. */
  const ColoredUnderlined: string :=
    "the " + ColorPrefix('1') + UnderlineOn + "cat" + UnderlineOff + Reset + " sat"

  lemma FindAllColored()
    ensures FindAll("cat", Colored) == ["cat"]
  {
    CatAtEleven();
    var rest := Colored[14..];
    assert rest == Reset + " sat";
    NoOccurrenceBefore("cat", rest, |rest|);
    assert rest[..|rest|] == rest;
  }

  lemma ReplaceColored()
    ensures Replace("cat", Underlined("cat"), Colored) == ColoredUnderlined
  {
    CatAtEleven();
    var rest := Colored[14..];
    assert rest == Reset + " sat";
    NoOccurrenceBefore("cat", rest, |rest|);
    assert rest[..|rest|] == rest;
    ReplaceNone("cat", Underlined("cat"), rest);
    ReplaceStep("cat", Underlined("cat"), Colored);
    assert Colored[..11] == "the " + ColorPrefix('1');
  }

  /** Colour runs before underline: with `-c red -u` the underline sequences
      end up inside the colour sequences. */
  lemma ColoredUnderlinedScenario()
    ensures Process(LiteralEngine, Options("cat", Some("red"), true, false), 0, Line, "f").Ok?
    ensures Process(LiteralEngine, Options("cat", Some("red"), true, false), 0, Line, "f").value.line == ColoredUnderlined
  {
    var opts := Options("cat", Some("red"), true, false);
    CatAtFour();
    FindAllLine();
    ReplaceLine();
    FindAllColored();
    ReplaceColored();
    var b := BaseFind(LiteralEngine, NewSearch(opts, 0, Line, "f")).value;
    assert b.line == Line;
    assert ["cat"][1..] == [];
    assert Paint("red")("cat") == GetColor("red", "cat");
    assert Substitute(LiteralEngine, ["cat"], Paint("red"), Line) == Ok(Colored);
    var c := ColorFind(LiteralEngine, b, "red");
    assert c == Ok(b.(line := Colored));
    assert Substitute(LiteralEngine, ["cat"], Underlined, Colored) == Ok(ColoredUnderlined);
    var u := UnderlineFind(LiteralEngine, c.value);
    assert u == Ok(b.(line := ColoredUnderlined));
  }

  lemma FileText()
    ensures PlainFormat("f", 0, "cat") == "f 0 cat"
  {
  }

  /** The last line of a file is lost as written: a file holding the single
      line `"cat\n"` prints nothing, where reading every line prints it. */
  lemma LastLineScenario()
    ensures ExecuteAsWritten(LiteralEngine, Options("cat", None, false, false), Files(["f"], map["f" := ["cat\n"]]))
         == Run([], None)
    ensures Execute(LiteralEngine, Options("cat", None, false, false), Files(["f"], map["f" := ["cat\n"]]))
         == Run(["f 0 cat"], None)
  {
    var opts := Options("cat", None, false, false);
    OneLineFileIsLost();
    var fs := map["f" := ["cat\n"]];
    assert ["f"][1..] == [];
    assert CollectFiles(["f"], fs, FileRecords) == Collected([Record("f", 0, "cat")], None);
    assert CollectFiles(["f"], fs, FileRecordsAsWritten) == Collected([], None);
    assert "cat"[0..3] == "cat";
    IndexOfFirst("cat", "cat", 0);
    FileText();
    var s := Process(LiteralEngine, opts, 0, "cat", "f").value;
    assert s.found && s.line == "cat";
    assert Render(s) == Ok(PlainFormat("f", 0, "cat"));
    EmitOne(LiteralEngine, opts, Record("f", 0, "cat"));
  }
}

=== FILE: search_words.dfy ===
/** The search classes: `SearchWords` and its colour, underline and machine
    variants, combined in `compositeSearch`. An object is modelled as an
    immutable `Search` value and each `findPatterns` as a function from the
    value before the call to the value after it. */
module SearchWords {
  import opened Wrappers
  import opened Regex
  import opened Palette
  import opened Format

  /** The command-line options every search object is built with. */
  datatype Options = Options(
    /** The regular expression. */
    exp: string,
    /** The `-c` colour name, `None` when the option is absent. */
    color: Option<string>,
    underline: bool,
    machine: bool)

  /** Python's truth test `if self._color:` — present and non-empty. */
  predicate ColorOn(color: Option<string>) {
    color.Some? && |color.value| > 0
  }

  /** The state of one `compositeSearch` object. */
  datatype Search = Search(
    opts: Options,
    fileName: string,
    num: nat,
    /** The line, as decorated so far. */
    line: string,
    found: bool,
    /** `self._start`; `None` while the attribute has never been assigned. */
    start: Option<nat>)

  /** `compositeSearch.__init__`. With colour or underline on, the
      cooperative `super().__init__` chain of those classes runs
      `searchWordWithMachine.__init__` too, which sets `_start` to 0; the
      separate `searchWordWithMachine(...)` built for the machine option is
      discarded, so with neither of the other two `_start` stays unset. */
  function NewSearch(opts: Options, num: nat, line: string, fileName: string): (s: Search)
    ensures !s.found && s.line == line && s.opts == opts && s.num == num && s.fileName == fileName
    ensures s.start.Some? <==> ColorOn(opts.color) || opts.underline
    ensures s.start.Some? ==> s.start.value == 0
  {
    Search(opts, fileName, num, line, false,
           if ColorOn(opts.color) || opts.underline then Some(0) else None)
  }

  /** `SearchWords.findPatterns`: sets `found` when the current line matches
      and never clears it; an expression that does not compile raises
      `re.error`. */
  function BaseFind(e: Engine, s: Search): (r: Result<Search, Crash>)
    ensures r.Err? <==> !e.compiles(s.opts.exp)
    ensures r.Err? ==> r.error == ReError
    ensures r.Ok? ==> (r.value.found <==> s.found || Matches(e, s.opts.exp, s.line))
    ensures r.Ok? ==> r.value == s.(found := r.value.found)
  {
    if !e.compiles(s.opts.exp) then Err(ReError)
    else if Matches(e, s.opts.exp, s.line) then Ok(s.(found := true))
    else Ok(s)
  }

  /** Every `re.sub` of an item of `items` by its decorated form succeeds,
      whatever text it is applied to. */
  ghost predicate SubsSucceed(e: Engine, items: seq<string>, decorate: string -> string) {
    forall p, t :: p in items ==> e.sub(p, decorate(p), t).Some?
  }

  /** The body of the colour and underline loops: for every substring
      `findall` returned, in order, `re.sub` it with its decorated form. The
      first `re.sub` that raises ends the loop with `re.error`. */
  function Substitute(e: Engine, items: seq<string>, decorate: string -> string, line: string): (r: Result<string, Crash>)
    ensures items == [] ==> r == Ok(line)
    ensures r.Err? ==> r.error == ReError
    ensures SubsSucceed(e, items, decorate) ==> r.Ok?
    decreases |items|
  {
    if |items| == 0 then Ok(line)
    else
      var next :- (match e.sub(items[0], decorate(items[0]), line)
                   case None => Err(ReError)
                   case Some(l) => Ok(l));
      assert SubsSucceed(e, items, decorate) ==> SubsSucceed(e, items[1..], decorate) by {
        assert forall p :: p in items[1..] ==> p in items;
      }
      Substitute(e, items[1..], decorate, next)
  }

  /** Running the substitutions for `a + b` is running them for `a` and then,
      unless one raised, for `b` on the result. */
  lemma {:induction false} SubstituteAppend(e: Engine, a: seq<string>, b: seq<string>, decorate: string -> string, line: string)
    ensures Substitute(e, a + b, decorate, line)
         == match Substitute(e, a, decorate, line)
            case Err(c) => Err(c)
            case Ok(l) => Substitute(e, b, decorate, l)
    decreases |a|
  {
    if |a| > 0 {
      assert (a + b)[0] == a[0] && (a + b)[1..] == a[1..] + b;
      match e.sub(a[0], decorate(a[0]), line)
      case None =>
      case Some(l) => SubstituteAppend(e, a[1..], b, decorate, l);
    } else {
      assert a + b == b;
    }
  }

  /** The `for i in re.findall(...)` loop as written, one substitution per
      iteration. */
  method SubstituteLoop(e: Engine, items: seq<string>, decorate: string -> string, line: string) returns (r: Result<string, Crash>)
    ensures r == Substitute(e, items, decorate, line)
  {
    var cur := line;
    var i := 0;
    while i < |items|
      invariant 0 <= i <= |items|
      invariant Substitute(e, items[i..], decorate, cur) == Substitute(e, items, decorate, line)
    {
      assert items[i..][1..] == items[i + 1..];
      var step := e.sub(items[i], decorate(items[i]), cur);
      if step.None? {
        return Err(ReError);
      }
      cur := step.value;
      i := i + 1;
    }
    return Ok(cur);
  }

  /** The colour of `color` as a decoration. */
  function Paint(color: string): string -> string {
    t => GetColor(color, t)
  }

  /** `searchWordsWithColor.findPatterns`: every match is re-substituted in
      its palette colour; only the line changes. `re.findall` and each
      `re.sub` may raise `re.error`. */
  function ColorFind(e: Engine, s: Search, color: string): (r: Result<Search, Crash>)
    ensures r.Err? ==> r.error == ReError
    ensures !e.compiles(s.opts.exp) ==> r.Err?
    ensures r.Ok? ==> r.value == s.(line := r.value.line)
    ensures e.compiles(s.opts.exp) && e.findAll(s.opts.exp, s.line) == [] ==> r == Ok(s)
    ensures e.compiles(s.opts.exp) && SubsSucceed(e, e.findAll(s.opts.exp, s.line), Paint(color)) ==> r.Ok?
  {
    if !e.compiles(s.opts.exp) then Err(ReError)
    else
      var line :- Substitute(e, e.findAll(s.opts.exp, s.line), Paint(color), s.line);
      Ok(s.(line := line))
  }

  /** The underline on and off sequences `\033[4m` and `\033[0m`. */
  const UnderlineOn: string := [Esc] + "[4m"
  const UnderlineOff: string := [Esc] + "[0m"

  function Underlined(t: string): string {
    UnderlineOn + t + UnderlineOff
  }

  /** `searchWordWithUnderlined.findPatterns`: every match is re-substituted
      between the underline sequences; only the line changes. `re.findall`
      and each `re.sub` may raise `re.error`. */
  function UnderlineFind(e: Engine, s: Search): (r: Result<Search, Crash>)
    ensures r.Err? ==> r.error == ReError
    ensures !e.compiles(s.opts.exp) ==> r.Err?
    ensures r.Ok? ==> r.value == s.(line := r.value.line)
    ensures e.compiles(s.opts.exp) && e.findAll(s.opts.exp, s.line) == [] ==> r == Ok(s)
    ensures e.compiles(s.opts.exp) && SubsSucceed(e, e.findAll(s.opts.exp, s.line), Underlined) ==> r.Ok?
  {
    if !e.compiles(s.opts.exp) then Err(ReError)
    else
      var line :- Substitute(e, e.findAll(s.opts.exp, s.line), Underlined, s.line);
      Ok(s.(line := line))
  }

  /** `searchWordWithMachine.findPatterns`. Its `super().findPatterns()` is
      the base search (next in the method resolution order), run on the line
      as it stands; then `_start` takes the offset of the first match in that
      same line, and is left alone when there is none. */
  function MachineFind(e: Engine, s: Search): (r: Result<Search, Crash>)
    ensures r.Err? <==> !e.compiles(s.opts.exp)
    ensures r.Err? ==> r.error == ReError
    ensures r.Ok? ==> r.value.line == s.line && r.value.opts == s.opts && r.value.fileName == s.fileName && r.value.num == s.num
    ensures r.Ok? ==> (r.value.found <==> s.found || Matches(e, s.opts.exp, s.line))
    ensures r.Ok? ==> r.value.start == (if Matches(e, s.opts.exp, s.line) then e.search(s.opts.exp, s.line) else s.start)
  {
    var b :- BaseFind(e, s);
    match e.search(b.opts.exp, b.line)
    case Some(p) => Ok(b.(start := Some(p)))
    case None => Ok(b)
  }

  /** `compositeSearch.findPatterns`: the base search on the original line,
      then colour, underline and machine, each when its option is on, in that
      order. The first `re.error` ends it. */
  function FindPatterns(e: Engine, s: Search): (r: Result<Search, Crash>)
    ensures r.Err? ==> r.error == ReError
    ensures !e.compiles(s.opts.exp) ==> r.Err?
    ensures e.compiles(s.opts.exp) && !ColorOn(s.opts.color) && !s.opts.underline ==> r.Ok?
    ensures r.Ok? ==> r.value.opts == s.opts && r.value.fileName == s.fileName && r.value.num == s.num
    ensures r.Ok? && s.found ==> r.value.found
    ensures r.Ok? && Matches(e, s.opts.exp, s.line) ==> r.value.found
    ensures r.Ok? && !ColorOn(s.opts.color) && !s.opts.underline ==> r.value.line == s.line
    ensures r.Ok? && !s.opts.machine ==> r.value.start == s.start
    ensures r.Ok? && s.opts.machine && Matches(e, s.opts.exp, r.value.line) ==> r.value.start == e.search(s.opts.exp, r.value.line)
    ensures r.Ok? && s.opts.machine && !Matches(e, s.opts.exp, r.value.line) ==> r.value.start == s.start
  {
    var b :- BaseFind(e, s);
    var c :- if ColorOn(s.opts.color) then ColorFind(e, b, s.opts.color.value) else Ok(b);
    var u :- if s.opts.underline then UnderlineFind(e, c) else Ok(c);
    if s.opts.machine then MachineFind(e, u) else Ok(u)
  }

  /** `compositeSearch.__str__`: the machine layout whenever the machine
      option is on, the plain layout otherwise; both print the decorated
      line. Reading `_start` before it was ever assigned raises
      `AttributeError`. The printed text reads back into the object's fields
      whenever the file name holds no separator of its layout;
      `RenderReadsBack` covers every file name. */
  function Render(s: Search): (r: Result<string, Crash>)
    ensures r.Err? <==> s.opts.machine && s.start.None?
    ensures r.Err? ==> r.error == AttributeError("_start")
    ensures r.Ok? && s.opts.machine && ':' !in s.fileName ==>
              ParseMachine(r.value) == Some(Fields(s.fileName, s.num, s.start, s.line))
    ensures r.Ok? && !s.opts.machine && ' ' !in s.fileName ==>
              ParsePlain(r.value) == Some(Fields(s.fileName, s.num, None, s.line))
  {
    if s.opts.machine then
      match s.start
      case Some(p) =>
        var out := MachineFormat(s.fileName, s.num, p, s.line);
        assert ':' !in s.fileName ==> ParseMachine(out) == Some(Fields(s.fileName, s.num, s.start, s.line)) by {
          if ':' !in s.fileName {
            ParseMachineFormat(s.fileName, s.num, p, s.line);
          }
        }
        Ok(out)
      case None => Err(AttributeError("_start"))
    else
      var out := PlainFormat(s.fileName, s.num, s.line);
      assert ' ' !in s.fileName ==> ParsePlain(out) == Some(Fields(s.fileName, s.num, None, s.line)) by {
        if ' ' !in s.fileName {
          ParsePlainFormat(s.fileName, s.num, s.line);
        }
      }
      Ok(out)
  }

  /** Given the source name, every text `__str__` prints reads back into the
      number, the offset and the line, whatever the file name holds; with
      `ParsePlainOfExact` and `ParseMachineOfExact` it is the only text that
      does, so the text is exactly `file_name line_number line` or
      `file_name:line_number:start_position:line`. */
  lemma RenderReadsBack(s: Search)
    ensures Render(s).Ok? && !s.opts.machine ==> ParsePlainOf(s.fileName, Render(s).value) == Some((s.num, s.line))
    ensures Render(s).Ok? && s.opts.machine ==>
              ParseMachineOf(s.fileName, Render(s).value) == Some((s.num, s.start.value, s.line))
  {
    if s.opts.machine {
      if s.start.Some? {
        ParseMachineOfFormat(s.fileName, s.num, s.start.value, s.line);
      }
    } else {
      ParsePlainOfFormat(s.fileName, s.num, s.line);
    }
  }

  /** One record through `compositeSearch(...)` and `findPatterns()`. */
  function Process(e: Engine, opts: Options, num: nat, line: string, fileName: string): Result<Search, Crash> {
    FindPatterns(e, NewSearch(opts, num, line, fileName))
  }

  /** An expression that does not compile raises `re.error` on the first
      record it is tried on, whatever the options. */
  lemma InvalidPatternRaises(e: Engine, opts: Options, num: nat, line: string, fileName: string)
    requires !e.compiles(opts.exp)
    ensures Process(e, opts, num, line, fileName) == Err(ReError)
  {
  }

  /** A matched substring is itself used as a pattern by the colour loop: when
      the first one cannot be substituted (it does not compile, or its
      coloured form is a bad replacement), the record raises `re.error` even
      though the expression itself is valid. */
  lemma ColorSubstitutionRaises(e: Engine, opts: Options, num: nat, line: string, fileName: string)
    requires e.compiles(opts.exp) && ColorOn(opts.color)
    requires |e.findAll(opts.exp, line)| > 0
    requires e.sub(e.findAll(opts.exp, line)[0], GetColor(opts.color.value, e.findAll(opts.exp, line)[0]), line).None?
    ensures Process(e, opts, num, line, fileName) == Err(ReError)
  {
    var items := e.findAll(opts.exp, line);
    assert Paint(opts.color.value)(items[0]) == GetColor(opts.color.value, items[0]);
  }

  /** Without decoration a valid expression never raises. */
  lemma UndecoratedNeverRaises(e: Engine, opts: Options, num: nat, line: string, fileName: string)
    requires e.compiles(opts.exp) && !ColorOn(opts.color) && !opts.underline
    ensures Process(e, opts, num, line, fileName).Ok?
  {
  }

  /** `regexFound()` is true exactly when the pattern occurs in the ORIGINAL
      line, whatever the options, once the search completes. With the machine
      option the base search runs again on the decorated line, so this needs
      `findall` to agree with `search` on the original line. */
  lemma FoundIffMatches(e: Engine, opts: Options, num: nat, line: string, fileName: string)
    requires opts.machine ==> FindAllAgrees(e, opts.exp, line)
    ensures Process(e, opts, num, line, fileName).Ok? ==>
              (Process(e, opts, num, line, fileName).value.found <==> Matches(e, opts.exp, line))
  {
  }

  /** A record that is printed never reaches the unset `_start`: without
      colour or underline `_start` is unset, but then the machine step searches
      the undecorated line, which matched, and assigns it. */
  lemma FoundRenders(e: Engine, opts: Options, num: nat, line: string, fileName: string)
    requires Process(e, opts, num, line, fileName).Ok?
    requires Process(e, opts, num, line, fileName).value.found
    ensures Render(Process(e, opts, num, line, fileName).value).Ok?
  {
  }

  /** With the machine option alone the third field is the offset of the first
      match in the line as read, and the line is printed untouched. */
  lemma MachineAloneReportsFirstOffset(e: Engine, opts: Options, num: nat, line: string, fileName: string)
    requires opts.machine && !ColorOn(opts.color) && !opts.underline
    requires e.compiles(opts.exp) && Matches(e, opts.exp, line)
    ensures Process(e, opts, num, line, fileName).Ok?
    ensures Render(Process(e, opts, num, line, fileName).value)
         == Ok(MachineFormat(fileName, num, e.search(opts.exp, line).value, line))
  {
  }

  /** With decoration on, the machine step searches the decorated line; when
      the decoration hides every match from the pattern, the offset printed
      is the 0 that the constructor chain stored. */
  lemma DecoratedMissReportsZero(e: Engine, opts: Options, num: nat, line: string, fileName: string)
    requires opts.machine && (ColorOn(opts.color) || opts.underline)
    requires Process(e, opts, num, line, fileName).Ok?
    requires !Matches(e, opts.exp, Process(e, opts, num, line, fileName).value.line)
    ensures Process(e, opts, num, line, fileName).value.start == Some(0)
  {
  }

  /** The colour and underline options change the printed text only through
      the line they decorate: two objects that agree on everything else print
      the same. */
  lemma RenderIgnoresDecorationOptions(s: Search, color: Option<string>, underline: bool)
    ensures Render(s.(opts := s.opts.(color := color, underline := underline))) == Render(s)
  {
  }
}

=== FILE: text.dfy ===
/** The few pieces of Python's `str` behaviour the search tool relies on:
    whitespace, `rstrip`/`lstrip`/`strip` with a character class, and the
    decimal rendering `str(n)` of a non-negative integer. */
module Text {

  /** Python's `str.isspace` for one character: the characters `str.rstrip()`
      with no argument removes. */
  predicate IsSpace(c: char) {
    || c == ' '
    || '\t' <= c <= '\r'
    || '\U{1C}' <= c <= '\U{1F}'
    || c == '\U{85}' || c == '\U{A0}' || c == '\U{1680}'
    || '\U{2000}' <= c <= '\U{200A}'
    || c == '\U{2028}' || c == '\U{2029}' || c == '\U{202F}'
    || c == '\U{205F}' || c == '\U{3000}'
  }

  /** The class `"\n"`, as in `rstrip("\n")` and `strip("\n")`. */
  predicate IsNewline(c: char) {
    c == '\n'
  }

  predicate IsDigit(c: char) {
    '0' <= c <= '9'
  }

  /** Every character of `s` is a decimal digit and there is at least one. */
  predicate IsNumeral(s: string) {
    |s| > 0 && forall i :: 0 <= i < |s| ==> IsDigit(s[i])
  }

  /** `s.rstrip(chars)`: the longest prefix of `s` that does not end in a
      character of the class. */
  function RStrip(s: string, drop: char -> bool): (r: string)
    ensures |r| <= |s| && r == s[..|r|]
    ensures forall i :: |r| <= i < |s| ==> drop(s[i])
    ensures |r| == 0 || !drop(r[|r| - 1])
  {
    if |s| == 0 || !drop(s[|s| - 1]) then s else RStrip(s[..|s| - 1], drop)
  }

  /** `s.lstrip(chars)`: the longest suffix of `s` that does not start with a
      character of the class. */
  function LStrip(s: string, drop: char -> bool): (r: string)
    ensures |r| <= |s| && r == s[|s| - |r|..]
    ensures forall i :: 0 <= i < |s| - |r| ==> drop(s[i])
    ensures |r| == 0 || !drop(r[0])
  {
    if |s| == 0 || !drop(s[0]) then s else LStrip(s[1..], drop)
  }

  /** `s.strip(chars)`: both ends trimmed. */
  function Strip(s: string, drop: char -> bool): (r: string)
    ensures |r| <= |s|
    ensures |r| == 0 || (!drop(r[0]) && !drop(r[|r| - 1]))
  {
    RStrip(LStrip(s, drop), drop)
  }

  /** The characters of `str(d)` for a single digit `d`. */
  function DigitChar(d: nat): (c: char)
    requires d < 10
    ensures IsDigit(c)
  {
    "0123456789"[d]
  }

  function DigitValue(c: char): (d: nat)
    requires IsDigit(c)
    ensures d < 10
  {
    c as int - '0' as int
  }

  lemma DigitRoundTrip(d: nat)
    requires d < 10
    ensures DigitValue(DigitChar(d)) == d
  {
  }

  /** `str(n)` for a non-negative integer: its decimal numeral, most
      significant digit first, with no leading zero. */
  function NatToString(n: nat): (r: string)
    ensures IsNumeral(r)
    ensures |r| > 1 ==> r[0] != '0'
    decreases n
  {
    if n < 10 then [DigitChar(n)] else NatToString(n / 10) + [DigitChar(n % 10)]
  }

  /** `int(s)` for a string of decimal digits. */
  function ParseNat(s: string): nat
    requires forall i :: 0 <= i < |s| ==> IsDigit(s[i])
  {
    if |s| == 0 then 0 else ParseNat(s[..|s| - 1]) * 10 + DigitValue(s[|s| - 1])
  }

  /** Reading back the decimal rendering gives the number again. */
  lemma {:induction false} ParseNatToString(n: nat)
    ensures ParseNat(NatToString(n)) == n
    decreases n
  {
    var r := NatToString(n);
    if n < 10 {
      DigitRoundTrip(n);
      assert r[..0] == [];
    } else {
      var p := NatToString(n / 10);
      assert r == p + [DigitChar(n % 10)];
      assert r[..|r| - 1] == p;
      ParseNatToString(n / 10);
      DigitRoundTrip(n % 10);
    }
  }

  /** A numeral as `str` writes it: no leading zero unless it is `"0"`. */
  predicate IsCanonical(s: string) {
    IsNumeral(s) && (|s| > 1 ==> s[0] != '0')
  }

  lemma DigitCharRoundTrip(c: char)
    requires IsDigit(c)
    ensures DigitChar(DigitValue(c)) == c
  {
  }

  /** A numeral without leading zeros is the rendering of the number it
      denotes, so it is the only numeral that reads back to that number. */
  lemma {:induction false} CanonicalRoundTrip(s: string)
    requires IsCanonical(s)
    ensures NatToString(ParseNat(s)) == s
    decreases |s|
  {
    var d := DigitValue(s[|s| - 1]);
    DigitCharRoundTrip(s[|s| - 1]);
    if |s| == 1 {
      assert s[..0] == [];
      assert NatToString(ParseNat(s)) == [DigitChar(d)];
    } else {
      var p := s[..|s| - 1];
      assert p[0] == s[0];
      CanonicalRoundTrip(p);
      var m := ParseNat(p);
      var n := ParseNat(s);
      assert n == m * 10 + d;
      assert n / 10 == m && n % 10 == d;
      assert NatToString(n) == NatToString(m) + [DigitChar(d)];
      assert s == p + [s[|s| - 1]];
    }
  }

  /** Distinct numbers render differently. */
  lemma NatToStringInjective(m: nat, n: nat)
    requires NatToString(m) == NatToString(n)
    ensures m == n
  {
    ParseNatToString(m);
    ParseNatToString(n);
  }

  /** A numeral contains none of the separators the output formats use. */
  lemma NumeralHasNo(s: string, sep: char)
    requires IsNumeral(s) && !IsDigit(sep)
    ensures sep !in s
  {
  }
}

=== FILE: wrappers.dfy ===
/** Small failure-carrying datatypes shared by the whole model. */
module Wrappers {

  /** A value that may be absent (Python's `None`). */
  datatype Option<+T> = None | Some(value: T)

  /** A value, or the reason there is none. */
  datatype Result<+T, +E> = Ok(value: T) | Err(error: E)
  {
    predicate IsFailure() {
      Err?
    }

    function PropagateFailure<U>(): Result<U, E>
      requires Err?
    {
      Err(error)
    }

    function Extract(): T
      requires Ok?
    {
      value
    }
  }

  /** The Python exceptions the search tool can end with. */
  datatype Crash =
    /** `input()` met the end of standard input. */
    | EOFError
    /** An instance attribute was read before it was ever assigned. */
    | AttributeError(attribute: string)
    /** `re.error`: a pattern that does not compile, or a replacement string
        with a bad escape. */
    | ReError

  /** What one run leaves behind: the lines written to standard output, in
      order, and the exception that stopped the run, if any. */
  datatype Run = Run(stdout: seq<string>, crash: Option<Crash>)
}
